=== FILE: README.md ===
# Tesco product scraper — extraction pipeline model

A Dafny model of the extraction core of `tesco_scraper.py`: the
ordered-selector text extractor, the per-tile product record builder, the
tile-container locator and per-tile skip loop, the pagination loop shared by
`search_products` and `scrape_category`, the detail-page helpers (nutrition
table, rating and review count, `get_product_details`), and the row layout
and empty-input guard of `save_to_csv` / `save_to_json`.

HTML documents and CSS selectors are abstract. A `Markup.Dom<N>` value
supplies `select` (all matches of a selector below a node, in document
order), `strings` (a node's text fragments) and `attr` (an attribute value)
as total functions over an opaque node type. `select_one` is the first
element of `select`. `get_text(strip=True)` is modelled from BeautifulSoup's
own algorithm: each fragment is stripped, blank ones are dropped, and the
rest are concatenated. `urljoin`, `quote` and "fetch this URL" are function
parameters. A fetch yields a document or a `RequestException`.

Modules, one per component:

- `wrappers.dfy` (`Wrappers`): `Option` and `Result`.
- `text.dfy` (`Text`): `str.strip()` with Python's whitespace set, decimal digits, `str(n)` and `int(s)`.
- `markup.dfy` (`Markup`): the abstract DOM, `select_one`, `get_text(strip=True)`, fetch outcomes.
- `extract.dfy` (`Extract`): one generic first-hit resolver. The text chains, the `href`/`src` chains and the tile-container chain are all instances of it.
- `catalog.dfy` (`Catalog`): `Product`, the selector constants, `_extract_product_data` and `_parse_product_listing`.
- `pagination.dfy` (`Pagination`): the page loop, the page URLs, `search_products` and `scrape_category`.
- `detail.dfy` (`Detail`): the nutrition dict (Python `dict` semantics), the regex number readers and `get_product_details`.
- `export.dfy` (`Export`): the ten-key row, the empty guard, and the read-back of rows.

Behaviour of the code that the model keeps as written:

- Pagination stops when a page parses to zero products. A page whose tiles all fail to build counts as empty.
- The loop returns only the product list. It reports no stop reason.
- There is no cancellation.
- The pacing sleep happens only after a page that contributed products.
- The image `src` is kept as found. It is not made absolute.
- `get_product_details` returns an empty dict on a request error.

## Model

| member | source | states |
|---|---|---|
| Text.Strip | tesco_scraper.py:250-259 | `.strip()` leaves no whitespace at either end, never lengthens, is empty exactly when the input is all whitespace, and leaves an already stripped string unchanged |
| Text.StripCutsOnlyWhitespace | tesco_scraper.py:250-259 | the result of `.strip()` is a contiguous slice of the input, and everything cut before and after it is whitespace |
| Text.ParseShowNat | tesco_scraper.py:349 | `int(str(n)) == n` for every natural number |
| Markup.GetText | tesco_scraper.py:278 | `get_text(strip=True)` never has surrounding whitespace and is empty exactly when every text fragment is blank |
| Extract.FirstHit | tesco_scraper.py:275-281 | the chosen rule is the first whose probe succeeds, every earlier one failed, and there is none exactly when all fail |
| Extract.TextBySelectors | tesco_scraper.py:266-281 | the result is the non-empty stripped text of the first selector whose first match has non-empty text; absent exactly when no selector qualifies |
| Extract.BlankFirstMatchFallsThrough | tesco_scraper.py:276-280 | a first selector with no match or a blank first match is skipped: the chain behaves as its remainder |
| Extract.FirstNonBlankSelectorWins | tesco_scraper.py:279-280 | once a selector yields text, appending further selectors changes nothing |
| Extract.FirstHitIgnoresLaterRules | tesco_scraper.py:152-156 | rules after the winning one are never consulted |
| Extract.AttrBySelectors | tesco_scraper.py:213-231 | the `href`/`src` value comes from the first selector whose first match has a non-empty value; absent exactly when none has |
| Extract.LocateTiles | tesco_scraper.py:151-156 | the tile list is empty exactly when no container selector matches anything |
| Extract.TilesComeFromFirstMatchingContainer | tesco_scraper.py:144-156 | the tiles are the full match list of the first container selector that matches, every earlier selector matched nothing, and later selectors are never consulted |
| Catalog.ExtractProductData | tesco_scraper.py:169-264 | a product is built exactly when a name is found and the link, if any, resolves; its name is the extracted text and is never empty; rating, review count and description are absent |
| Catalog.ProductLink | tesco_scraper.py:213-218 | no `href` gives no link; otherwise the link is `urljoin` of the base URL and the first non-empty `href`, and a failing join fails the tile |
| Catalog.Assemble | tesco_scraper.py:249-260 | each text field is the `.strip()` of its input: name, availability (after the "Available" default), and price, unit price and brand when found; the price defaults to "N/A", unit price and brand are present exactly when found, the URL defaults to "", the image is kept as found, and rating, count and description are absent |
| Catalog.BuilderFieldsAndDefaults | tesco_scraper.py:190-260 | price defaults to "N/A", availability to "Available", the URL to "" when no link is found; only the link goes through `urljoin` with the base URL; the image `src` is kept as found |
| Catalog.AssembleKeepsStrippedTexts | tesco_scraper.py:249-260 | the constructor's second `.strip()` leaves every extracted text unchanged, so each field is the extracted value or its default |
| Catalog.Collect | tesco_scraper.py:158-162 | the collected products are never more than the build results, and each is one of the present results |
| Catalog.CollectFollowsKeptIndices | tesco_scraper.py:158-167 | the skip loop's result is the built product at each kept tile position, in tile order |
| Catalog.KeptIndicesIncreasingAndComplete | tesco_scraper.py:158-162 | the kept positions are strictly increasing and are exactly the tiles whose builder produced a product |
| Catalog.CollectIsOrderedSubsequence | tesco_scraper.py:158-167 | the kept products sit at strictly increasing tile positions, each is the product built there, and every tile that built a product is kept |
| Catalog.ParseProductListing | tesco_scraper.py:133-167 | the products are those `_extract_product_data` builds from the located tiles, at strictly increasing tile positions; every tile that builds a product contributes it; all have names; there are none when no container selector matches |
| Catalog.BuiltProductsInTileOrder | tesco_scraper.py:158-167 | over any tile list, the skip loop keeps exactly the products built, in tile order, each from its own tile, and all named |
| Pagination.CrawlFrom | tesco_scraper.py:69-93 | requests go to consecutive pages from the start page and never past the limit |
| Pagination.CrawlFromStopsAtFirstEmptyOrFailedPage | tesco_scraper.py:69-93 | every fetched page but the last contributed products; the last is the first failed or empty page, or the limit; the result concatenates the kept pages |
| Pagination.RunStopsAtFirstEmptyOrFailedPage | tesco_scraper.py:67-95 | a run requests pages 1, 2, ... in order, never page 0 and at most `max_pages` of them; it stops at the first failed or empty page; earlier pages' products are all kept, each page's as a prefix |
| Pagination.GatheredPrefix | tesco_scraper.py:86 | extending the result with later pages never removes earlier products |
| Pagination.CrawlItemsComeFromPages | tesco_scraper.py:80-86 | every product of a run comes from some page's parsed products |
| Pagination.Paginate | tesco_scraper.py:67-95 | the `for`/`break` loop computes exactly the reference run: same products, same requested pages |
| Pagination.ListingLoader | tesco_scraper.py:75-93 | one page is absent when its request fails and is otherwise the listing parsed from the fetched document; every product has a name |
| Pagination.SearchUrl | tesco_scraper.py:73 | a search URL is the base URL, then `/groceries/en-GB/search?query=`, the quoted query and `&page=`, then the page number in decimal |
| Pagination.CategoryPageUrl | tesco_scraper.py:112 | a category page URL is the category URL followed by `?page=` and the page number |
| Pagination.SearchProducts | tesco_scraper.py:58-95 | `search_products` is the run over the search URLs for the query, with `max_pages` defaulting to 5, and every product has a name |
| Pagination.ScrapeCategory | tesco_scraper.py:97-131 | `scrape_category` is the same run over the category's page URLs, with `max_pages` defaulting to 5, and every product has a name |
| Pagination.SearchPageUrlsDistinct | tesco_scraper.py:69-73 | different page numbers give different search URLs, so no search page is requested twice |
| Pagination.CategoryPageUrlsDistinct | tesco_scraper.py:108-112 | different page numbers give different category page URLs, so no category page is requested twice |
| Pagination.EmptySecondPageScenario | tesco_scraper.py:82-84 | with 20 products on page 1, none on page 2 and a limit of 5, the run returns page 1's products after requesting pages 1 and 2 |
| Pagination.FailedSecondPageScenario | tesco_scraper.py:91-93 | when page 2's request fails after 15 products on page 1, those 15 are returned |
| Detail.Put | tesco_scraper.py:324 | `d[key] = value` maps the key to the value, keeps every other key's value, and places a new key last while an existing key keeps its place |
| Detail.LookupFindsKeys | tesco_scraper.py:324 | in the dict that `nutrition[key] = value` builds, a label has a value exactly when it is one of the dict's keys |
| Detail.PutAllKeysInFirstOrder | tesco_scraper.py:318-324 | the nutrition dict's keys are the row labels in order of first appearance, without repeats |
| Detail.PutAllAbsentLabels | tesco_scraper.py:318-324 | a label is absent from the dict exactly when no row carries it |
| Detail.PutAllLastWriteWins | tesco_scraper.py:318-324 | a label maps to the value of the last row carrying it |
| Detail.NutritionScenario | tesco_scraper.py:319-324 | rows Energy/250kcal, Fat/5g, Energy/260kcal give Energy: 260kcal, then Fat: 5g |
| Detail.NutritionRow | tesco_scraper.py:320-323 | a row contributes a pair exactly when it has at least two cells, and the pair is the text of the first cell and the text of the second |
| Detail.NutritionPairs | tesco_scraper.py:319-324 | each pair is the reading of a row with two or more cells, at strictly increasing row positions, and every such row contributes one |
| Detail.ShortRowIgnored | tesco_scraper.py:321 | a row with fewer than two cells changes nothing, wherever it stands among the rows |
| Detail.ExtractNutritionInfo | tesco_scraper.py:312-326 | no nutrition table gives an empty dict; keys are always distinct |
| Detail.NutritionLastRowWins | tesco_scraper.py:312-326 | in the dict, a row's first-cell text maps to its second-cell text when no later row with two or more cells repeats that label |
| Detail.NutritionLabelAbsent | tesco_scraper.py:312-326 | a label is missing from the dict exactly when there is no table or no row with two or more cells carries it |
| Detail.IntegerSpan | tesco_scraper.py:347 | `\d+` matches the leftmost maximal digit run; there is no match exactly when the text has no digit |
| Detail.ParseReviewCount | tesco_scraper.py:346-349 | the review count is absent exactly when the text has no digit |
| Detail.ReviewCountReadsSpan | tesco_scraper.py:347-349 | for any text, the count is the integer of the leftmost maximal digit run, so leading zeros are dropped ("007 reviews" gives 7) |
| Detail.ReviewCountRoundTrip | tesco_scraper.py:347-349 | `str(n)` between digit-free text and text not starting with a digit reads back as `n` |
| Detail.ParseRating | tesco_scraper.py:338-341 | the rating token is absent exactly when the text has no digit; its whole part is a non-empty digit run, and the fraction is digits, empty without a point |
| Detail.RatingRoundTripWithPoint | tesco_scraper.py:339 | digits, '.', digits after digit-free text read back as that token |
| Detail.RatingRoundTripWhole | tesco_scraper.py:339 | digits not followed by '.' or a digit read back as a whole-number token |
| Detail.ExtractReviewInfo | tesco_scraper.py:328-351 | the rating is `ParseRating` of the rating element's text and the count is `ParseReviewCount` of the count element's text; each is absent when its element is missing or its text has no digit |
| Detail.GetProductDetails | tesco_scraper.py:283-310 | the empty result comes exactly from a failed request; otherwise description and ingredients are their selector chains' texts, nutrition is the table's dict and reviews are the review summary, all read from the fetched document |
| Export.ToRow | tesco_scraper.py:367-378 | each row has exactly the ten keys in the fixed order |
| Export.RowRoundTrip | tesco_scraper.py:400-411 | reading a row back gives the product field for field, with absent optionals as null |
| Export.ProductDicts | tesco_scraper.py:365-379 | one row per product, in input order, each with the fixed keys and reading back to its product |
| Export.SaveToJson | tesco_scraper.py:393-416 | the JSON export is skipped exactly on an empty list; otherwise one object per product in order, each reading back to its product |
| Export.SaveToCsv | tesco_scraper.py:360-383 | the CSV export is skipped exactly on an empty list; otherwise the header is the fixed key order and there is one ten-cell row per product |
| Export.ExportsAgree | tesco_scraper.py:366-383 | the CSV header is the JSON key order, each CSV row is the JSON object's values, and the CSV rows read back to the products |

## Left out

- HTTP session, headers, `raise_for_status` and transport errors: a fetch is a parameter yielding a document or `RequestFailed`.
- All logging: it has no effect on the returned values.
- `time.sleep(self.delay)` pacing (lines 89, 125 and 305): the model assumes a non-negative `delay`. A negative one makes `time.sleep` raise `ValueError`, which the `except requests.RequestException` handlers do not catch. `search_products` and `scrape_category` would then raise after the first page that yields products, losing the products gathered so far. `get_product_details` would raise after a successful fetch. The model's `SearchProducts`, `ScrapeCategory` and `GetProductDetails` always return.
- Parsing errors: the `Fetch` outcome assumes parsing a fetched response never raises. Recent BeautifulSoup releases raise `ParserRejectedMarkup` on some malformed markup, and that exception escapes the same `try` blocks.
- BeautifulSoup parsing and CSS selector semantics: `select`, `strings` and `attr` are uninterpreted. Which text nodes count as fragments (comments, scripts) is BeautifulSoup's choice and sits inside `strings`.
- Exceptions from selector matching: the model assumes DOM lookups with the fixed selectors never raise. `urljoin` is the only raising step of the builder; a `Failure` from the `join` parameter stands for its `ValueError`.
- The `except` around each tile in `_parse_product_listing` (lines 163-165): `_extract_product_data` already catches every `Exception`, so that handler cannot fire. The tile loop is modelled over the builder's `Option` results.
- `urljoin` and `quote`: uninterpreted function parameters.
- `float(...)` on the rating: floating point. The model keeps the matched token (`whole`, optional point, `fraction`).
- `\d` in Python matches every Unicode decimal digit; the model recognises ASCII `0`-`9` only.
- pandas CSV formatting, `json.dump` formatting (indentation, `ensure_ascii=False`) and file writing: only the row mapping, the column order and the empty guard are modelled.
- The `TescoScraper` constructor's `base_url` is a constant here (`Catalog.BaseUrl`); `delay` only paces requests and is not modelled (see above).
- `main()`, `web_ui.py`, `launch_ui.py`, `examples.py`, `my_scraper.py`, `test_scraper.py` and `quick_test.py`: demos, UI and live-network smoke tests outside the extraction core.
- Detail.ExtractNutritionInfo: its own contract states only the empty case and distinct keys. What each label maps to is stated by `Detail.NutritionLastRowWins` and `Detail.NutritionLabelAbsent`, and key order by `Detail.PutAllKeysInFirstOrder`.
- Detail.ParseReviewCount: reads a digit run of any length. CPython 3.11 and later refuse `int()` on strings of more than 4300 digits by default and raise `ValueError`, which `get_product_details` does not catch. That failure is not modelled.
- Detail.ReviewCountRoundTrip: holds for every `n`, including counts of more than 4300 digits that CPython's default `int()` limit would refuse.

=== FILE: catalog.dfy ===
/** The listing side of the scraper: the `Product` record, the per-tile
    record builder (`_extract_product_data`) and the listing parser that
    runs it over every located tile (`_parse_product_listing`). */
module Catalog {
  import opened Wrappers
  import opened Text
  import opened Markup
  import opened Extract

  const BaseUrl: string := "https://www.tesco.com"

  const ContainerSelectors: seq<string> :=
    [".product-tile", "[data-auto=\"product-tile\"]", ".product-list--list-item", ".beans-tile"]
  const NameSelectors: seq<string> :=
    [".product-tile--title", "[data-auto=\"product-tile-title\"]", ".product-details--content h3", "h3 a"]
  const PriceSelectors: seq<string> :=
    [".product-tile--price", "[data-auto=\"price-current\"]", ".price-current", ".beans-price__text"]
  const UnitPriceSelectors: seq<string> :=
    [".product-tile--price-per-unit", "[data-auto=\"price-per-quantity-weight\"]", ".price-per-unit"]
  const LinkSelectors: seq<string> :=
    ["a[href*=\"/groceries/\"]", ".product-tile--title a", "h3 a"]
  const ImageSelectors: seq<string> :=
    [".product-tile--image img", "img[src*=\"digitalcontent\"]", ".product-image img"]
  const AvailabilitySelectors: seq<string> :=
    [".product-tile--availability", "[data-auto=\"availability\"]", ".availability-text"]
  const BrandSelectors: seq<string> :=
    [".product-tile--brand", "[data-auto=\"brand\"]", ".brand-name"]

  const PriceDefault: string := "N/A"
  const AvailabilityDefault: string := "Available"

  /** A rating as the text the rating pattern matched: a run of digits, an
      optional decimal point and a possibly empty run of digits after it
      (what `float(...)` is then applied to). */
  datatype DecimalToken = DecimalToken(whole: string, point: bool, fraction: string)

  /** One scraped product. `rating`, `reviewCount` and `description` are
      never filled from a listing tile. */
  datatype Product = Product(
    name: string,
    price: string,
    pricePerUnit: Option<string>,
    imageUrl: Option<string>,
    productUrl: string,
    availability: string,
    rating: Option<DecimalToken>,
    reviewCount: Option<nat>,
    description: Option<string>,
    brand: Option<string>)

  /** An exception escaping a step of the builder. `urljoin` is the only
      such step: it raises `ValueError` on a malformed `href`. */
  datatype Fault = MalformedUrl(href: string)

  /** `urljoin(base, href)`, which either resolves or raises. */
  type Joiner = (string, string) -> Result<string, Fault>

  /** The resolved product link, if the tile has an `href`; a failing
      `urljoin` is the exception that ends the tile. */
  function ProductLink<N>(dom: Dom<N>, join: Joiner, tile: N): (r: Result<Option<string>, Fault>)
    ensures AttrBySelectors(dom, tile, LinkSelectors, "href").None? ==> r == Success(None)
    ensures AttrBySelectors(dom, tile, LinkSelectors, "href").Some? ==>
      var joined := join(BaseUrl, AttrBySelectors(dom, tile, LinkSelectors, "href").value);
      && (r.Failure? <==> joined.Failure?)
      && (r.Success? ==> r.value == Some(joined.value))
  {
    match AttrBySelectors(dom, tile, LinkSelectors, "href")
    case None => Success(None)
    case Some(href) =>
      match join(BaseUrl, href)
      case Success(url) => Success(Some(url))
      case Failure(e) => Failure(e)
  }

  /** The `Product(...)` constructor call at the end of the builder: the
      present texts are stripped again and the absent ones defaulted. */
  function Assemble(name: string, price: Option<string>, unitPrice: Option<string>, link: Option<string>,
                    image: Option<string>, availability: Option<string>, brand: Option<string>): (r: Product)
    ensures IsStripped(r.name) && IsStripped(r.availability)
    ensures price.None? ==> r.price == PriceDefault
    ensures price.Some? ==> IsStripped(r.price) && |r.price| <= |price.value|
    ensures r.pricePerUnit.Some? <==> unitPrice.Some?
    ensures r.brand.Some? <==> brand.Some?
    ensures r.name == Strip(name)
    ensures price.Some? ==> r.price == Strip(price.value)
    ensures unitPrice.Some? ==> r.pricePerUnit == Some(Strip(unitPrice.value))
    ensures r.availability == Strip(availability.GetOr(AvailabilityDefault))
    ensures brand.Some? ==> r.brand == Some(Strip(brand.value))
    ensures r.productUrl == if link.Some? then link.value else ""
    ensures r.imageUrl == image
    ensures r.rating.None? && r.reviewCount.None? && r.description.None?
  {
    Product(
      name := Strip(name),
      price := if price.Some? then Strip(price.value) else PriceDefault,
      pricePerUnit := if unitPrice.Some? then Some(Strip(unitPrice.value)) else None,
      imageUrl := image,
      productUrl := link.GetOr(""),
      availability := Strip(availability.GetOr(AvailabilityDefault)),
      rating := None,
      reviewCount := None,
      description := None,
      brand := if brand.Some? then Some(Strip(brand.value)) else None)
  }

  /** On already-stripped texts the second strip changes nothing, so each
      field is the extracted value or its default. */
  lemma AssembleKeepsStrippedTexts(name: string, price: Option<string>, unitPrice: Option<string>, link: Option<string>,
                                   image: Option<string>, availability: Option<string>, brand: Option<string>)
    requires Strip(name) == name
    requires price.Some? ==> Strip(price.value) == price.value
    requires unitPrice.Some? ==> Strip(unitPrice.value) == unitPrice.value
    requires availability.Some? ==> Strip(availability.value) == availability.value
    requires brand.Some? ==> Strip(brand.value) == brand.value
    ensures Assemble(name, price, unitPrice, link, image, availability, brand).name == name
    ensures Assemble(name, price, unitPrice, link, image, availability, brand).price == price.GetOr(PriceDefault)
    ensures Assemble(name, price, unitPrice, link, image, availability, brand).pricePerUnit == unitPrice
    ensures Assemble(name, price, unitPrice, link, image, availability, brand).imageUrl == image
    ensures Assemble(name, price, unitPrice, link, image, availability, brand).productUrl == link.GetOr("")
    ensures Assemble(name, price, unitPrice, link, image, availability, brand).availability == availability.GetOr(AvailabilityDefault)
    ensures Assemble(name, price, unitPrice, link, image, availability, brand).brand == brand
  {
    DefaultsAreStripped();
    var p := Assemble(name, price, unitPrice, link, image, availability, brand);
    if brand.Some? {
      assert p.brand == Some(brand.value);
    }
    if unitPrice.Some? {
      assert p.pricePerUnit == Some(unitPrice.value);
    }
  }

  /** "Available" has no surrounding whitespace. */
  lemma DefaultsAreStripped()
    ensures Strip(AvailabilityDefault) == AvailabilityDefault
  {
    assert IsStripped(AvailabilityDefault);
  }

  /** The `try` block of `_extract_product_data`. */
  function ExtractProductBody<N>(dom: Dom<N>, join: Joiner, tile: N): Result<Option<Product>, Fault> {
    var name := TextBySelectors(dom, tile, NameSelectors);
    if name.None? then Success(None)
    else
      var price := TextBySelectors(dom, tile, PriceSelectors);
      var unitPrice := TextBySelectors(dom, tile, UnitPriceSelectors);
      match ProductLink(dom, join, tile)
      case Failure(e) => Failure(e)
      case Success(link) =>
        var image := AttrBySelectors(dom, tile, ImageSelectors, "src");
        var availability := TextBySelectors(dom, tile, AvailabilitySelectors);
        var brand := TextBySelectors(dom, tile, BrandSelectors);
        Success(Some(Assemble(name.value, price, unitPrice, link, image, availability, brand)))
  }

  /** `_extract_product_data`: a product exactly when the tile has a name
      and its link (if any) resolves; any exception becomes `None`. The
      name is the extracted text itself, hence never empty. */
  function ExtractProductData<N>(dom: Dom<N>, join: Joiner, tile: N): (r: Option<Product>)
    ensures r.Some? <==> TextBySelectors(dom, tile, NameSelectors).Some? && ProductLink(dom, join, tile).Success?
    ensures r.Some? ==> r.value.name == TextBySelectors(dom, tile, NameSelectors).value && r.value.name != []
    ensures r.Some? ==> r.value.rating.None? && r.value.reviewCount.None? && r.value.description.None?
  {
    ExtractProductBody(dom, join, tile).Recover(None)
  }

  /** The builder's defaults: price falls back to "N/A", availability to
      "Available", the link to "" when no `href` is found; present values
      are the extracted texts unchanged. Only the link is resolved against
      the base URL; the image `src` is kept as found. */
  lemma BuilderFieldsAndDefaults<N>(dom: Dom<N>, join: Joiner, tile: N)
    requires ExtractProductData(dom, join, tile).Some?
    ensures var p := ExtractProductData(dom, join, tile).value;
      && p.price == TextBySelectors(dom, tile, PriceSelectors).GetOr(PriceDefault)
      && p.pricePerUnit == TextBySelectors(dom, tile, UnitPriceSelectors)
      && p.availability == TextBySelectors(dom, tile, AvailabilitySelectors).GetOr(AvailabilityDefault)
      && p.brand == TextBySelectors(dom, tile, BrandSelectors)
      && p.imageUrl == AttrBySelectors(dom, tile, ImageSelectors, "src")
      && (AttrBySelectors(dom, tile, LinkSelectors, "href").None? ==> p.productUrl == "")
      && (AttrBySelectors(dom, tile, LinkSelectors, "href").Some? ==>
            join(BaseUrl, AttrBySelectors(dom, tile, LinkSelectors, "href").value) == Success(p.productUrl))
  {
    ExtractedProductIsAssembled(dom, join, tile);
    AssembleKeepsStrippedTexts(
      TextBySelectors(dom, tile, NameSelectors).value,
      TextBySelectors(dom, tile, PriceSelectors),
      TextBySelectors(dom, tile, UnitPriceSelectors),
      ProductLink(dom, join, tile).value,
      AttrBySelectors(dom, tile, ImageSelectors, "src"),
      TextBySelectors(dom, tile, AvailabilitySelectors),
      TextBySelectors(dom, tile, BrandSelectors));
    BuiltLinkIsJoined(dom, join, tile);
  }

  /** The product URL of a built product is the joined `href`, or "" when
      there is none. */
  lemma BuiltLinkIsJoined<N>(dom: Dom<N>, join: Joiner, tile: N)
    requires ExtractProductData(dom, join, tile).Some?
    ensures var url := ExtractProductData(dom, join, tile).value.productUrl;
      && (AttrBySelectors(dom, tile, LinkSelectors, "href").None? ==> url == "")
      && (AttrBySelectors(dom, tile, LinkSelectors, "href").Some? ==>
            join(BaseUrl, AttrBySelectors(dom, tile, LinkSelectors, "href").value) == Success(url))
  {
    ExtractedProductIsAssembled(dom, join, tile);
    var link := ProductLink(dom, join, tile);
    var url := ExtractProductData(dom, join, tile).value.productUrl;
    assert url == if link.value.Some? then link.value.value else "";
    var href := AttrBySelectors(dom, tile, LinkSelectors, "href");
    if href.Some? {
      assert link.value == Some(join(BaseUrl, href.value).value);
    }
  }

  /** A built product is the constructor applied to the extracted values. */
  lemma ExtractedProductIsAssembled<N>(dom: Dom<N>, join: Joiner, tile: N)
    requires ExtractProductData(dom, join, tile).Some?
    ensures ProductLink(dom, join, tile).Success?
    ensures ExtractProductData(dom, join, tile) == Some(Assemble(
      TextBySelectors(dom, tile, NameSelectors).value,
      TextBySelectors(dom, tile, PriceSelectors),
      TextBySelectors(dom, tile, UnitPriceSelectors),
      ProductLink(dom, join, tile).value,
      AttrBySelectors(dom, tile, ImageSelectors, "src"),
      TextBySelectors(dom, tile, AvailabilitySelectors),
      TextBySelectors(dom, tile, BrandSelectors)))
  {
  }

  /** `if product: products.append(product)` over the build results, in
      order (a `Product` is always truthy). */
  function Collect<T>(results: seq<Option<T>>): (r: seq<T>)
    ensures |r| <= |results|
    ensures forall k :: 0 <= k < |r| ==> Some(r[k]) in results
  {
    if results == [] then []
    else
      var last := results[|results| - 1];
      Collect(results[..|results| - 1]) + (if last.Some? then [last.value] else [])
  }

  /** Positions of the build results that produced a product. */
  function KeptIndices<T>(results: seq<Option<T>>): seq<nat> {
    if results == [] then []
    else
      var n := |results| - 1;
      KeptIndices(results[..n]) + (if results[n].Some? then [n] else [])
  }

  /** Collecting drops the absent results and keeps the rest in order:
      one product per kept position, each the product built there. */
  lemma {:induction false} CollectFollowsKeptIndices<T>(results: seq<Option<T>>)
    ensures |Collect(results)| == |KeptIndices(results)| <= |results|
    ensures forall j :: 0 <= j < |KeptIndices(results)| ==>
      KeptIndices(results)[j] < |results| && results[KeptIndices(results)[j]] == Some(Collect(results)[j])
  {
    if results != [] {
      var n := |results| - 1;
      var init := results[..n];
      CollectFollowsKeptIndices(init);
      assert forall i :: 0 <= i < n ==> init[i] == results[i];
    }
  }

  /** Kept positions increase strictly and include every position that
      built a product. */
  lemma {:induction false} KeptIndicesIncreasingAndComplete<T>(results: seq<Option<T>>)
    ensures forall j :: 0 <= j < |KeptIndices(results)| ==> KeptIndices(results)[j] < |results|
    ensures forall j, k :: 0 <= j < k < |KeptIndices(results)| ==> KeptIndices(results)[j] < KeptIndices(results)[k]
    ensures forall i :: 0 <= i < |results| && results[i].Some? ==> i in KeptIndices(results)
  {
    if results != [] {
      var n := |results| - 1;
      var init := results[..n];
      KeptIndicesIncreasingAndComplete(init);
      assert forall i :: 0 <= i < n ==> init[i] == results[i];
    }
  }

  /** The collected products are an order-preserving subsequence of the
      build results: they sit at strictly increasing positions, each is the
      product built there, and every position that built a product is
      kept. A skipped tile therefore never aborts the rest. */
  lemma CollectIsOrderedSubsequence<T>(results: seq<Option<T>>)
    ensures |Collect(results)| == |KeptIndices(results)| <= |results|
    ensures forall j :: 0 <= j < |KeptIndices(results)| ==>
      KeptIndices(results)[j] < |results| && results[KeptIndices(results)[j]] == Some(Collect(results)[j])
    ensures forall j, k :: 0 <= j < k < |KeptIndices(results)| ==> KeptIndices(results)[j] < KeptIndices(results)[k]
    ensures forall i :: 0 <= i < |results| && results[i].Some? ==> i in KeptIndices(results)
  {
    CollectFollowsKeptIndices(results);
    KeptIndicesIncreasingAndComplete(results);
  }

  /** Collecting distributes over concatenation of the results. */
  lemma {:induction false} CollectAppend<T>(a: seq<Option<T>>, b: seq<Option<T>>)
    ensures Collect(a + b) == Collect(a) + Collect(b)
  {
    if b == [] {
      assert a + b == a;
    } else {
      var n := |b| - 1;
      CollectAppend(a, b[..n]);
      assert (a + b)[..|a + b| - 1] == a + b[..n];
      assert (a + b)[|a + b| - 1] == b[n];
    }
  }

  /** An absent result contributes nothing, wherever it stands. */
  lemma CollectSkipsAbsent<T>(before: seq<Option<T>>, after: seq<Option<T>>)
    ensures Collect(before + [None] + after) == Collect(before + after)
  {
    var none: seq<Option<T>> := [None];
    assert Collect(none) == [] by {
      assert none[..0] == [];
    }
    CollectAppend(before + none, after);
    CollectAppend(before, none);
    assert Collect(before) + [] == Collect(before);
    CollectAppend(before, after);
  }

  /** The build result of each located tile, in tile order. */
  function BuildAll<N>(dom: Dom<N>, join: Joiner, tiles: seq<N>): (r: seq<Option<Product>>)
    ensures |r| == |tiles|
    ensures forall i :: 0 <= i < |tiles| ==> r[i] == ExtractProductData(dom, join, tiles[i])
  {
    seq(|tiles|, i requires 0 <= i < |tiles| => ExtractProductData(dom, join, tiles[i]))
  }

  /** Every collected value came from some result, so a property of all
      present results holds of every collected value. */
  lemma {:induction false} CollectedNamesNonEmpty(results: seq<Option<Product>>)
    requires forall i :: 0 <= i < |results| && results[i].Some? ==> results[i].value.name != []
    ensures |Collect(results)| <= |results|
    ensures forall k :: 0 <= k < |Collect(results)| ==> Collect(results)[k].name != []
  {
    CollectFollowsKeptIndices(results);
  }

  /** The skip loop over built tiles: the kept products are those built
      at strictly increasing tile positions, every tile that builds a
      product contributes it, and none has an empty name. */
  lemma BuiltProductsInTileOrder<N>(dom: Dom<N>, join: Joiner, tiles: seq<N>)
    ensures var results := BuildAll(dom, join, tiles);
      var r, kept := Collect(results), KeptIndices(results);
      && |r| == |kept| <= |tiles|
      && (forall j :: 0 <= j < |r| ==>
            kept[j] < |tiles| && ExtractProductData(dom, join, tiles[kept[j]]) == Some(r[j]))
      && (forall j, k :: 0 <= j < k < |r| ==> kept[j] < kept[k])
      && (forall i :: 0 <= i < |tiles| && ExtractProductData(dom, join, tiles[i]).Some? ==> i in kept)
      && (forall k :: 0 <= k < |r| ==> r[k].name != [])
  {
    var results := BuildAll(dom, join, tiles);
    CollectIsOrderedSubsequence(results);
    CollectedNamesNonEmpty(results);
  }

  /** `_parse_product_listing`: the products built from the tiles of the
      first matching container selector, in tile order, skipping the tiles
      the builder rejects. Each product is the one built from its tile, the
      tiles they come from are strictly increasing, every tile that builds
      a product contributes it, and none has an empty name. */
  function ParseProductListing<N>(dom: Dom<N>, join: Joiner, doc: N): (r: seq<Product>)
    ensures var tiles := LocateTiles(dom, doc, ContainerSelectors);
      var kept := KeptIndices(BuildAll(dom, join, tiles));
      && |r| == |kept| <= |tiles|
      && (forall j :: 0 <= j < |r| ==>
            kept[j] < |tiles| && ExtractProductData(dom, join, tiles[kept[j]]) == Some(r[j]))
      && (forall j, k :: 0 <= j < k < |r| ==> kept[j] < kept[k])
      && (forall i :: 0 <= i < |tiles| && ExtractProductData(dom, join, tiles[i]).Some? ==> i in kept)
    ensures forall k :: 0 <= k < |r| ==> r[k].name != []
    ensures (forall i :: 0 <= i < |ContainerSelectors| ==> |dom.select(doc, ContainerSelectors[i])| == 0) ==> r == []
  {
    var tiles := LocateTiles(dom, doc, ContainerSelectors);
    BuiltProductsInTileOrder(dom, join, tiles);
    Collect(BuildAll(dom, join, tiles))
  }
}

=== FILE: detail.dfy ===
/** The detail-page helpers: `get_product_details` with its nutrition
    table reader (`_extract_nutrition_info`) and its rating and review-count
    readers (`_extract_review_info`). */
module Detail {
  import opened Wrappers
  import opened Text
  import opened Markup
  import opened Extract
  import opened Catalog

  const DescriptionSelectors: seq<string> := [".product-description", ".product-details"]
  const IngredientsSelectors: seq<string> := [".ingredients", ".product-ingredients"]
  const NutritionTableSelector: string := ".nutrition-table, .nutritional-information"
  const NutritionRowSelector: string := "tr"
  const NutritionCellSelector: string := "td, th"
  const RatingSelector: string := "[data-rating], .star-rating, .rating-value"
  const ReviewCountSelector: string := ".review-count, [data-review-count]"

  // ---------------------------------------------------------------------
  // A Python `dict` from strings to strings: keys keep the order of their
  // first insertion, and assigning to an existing key replaces its value in
  // place.

  type Assoc = seq<(string, string)>

  function Keys(m: Assoc): seq<string> {
    if m == [] then [] else [m[0].0] + Keys(m[1..])
  }

  predicate NoDuplicates(xs: seq<string>) {
    forall i, j :: 0 <= i < j < |xs| ==> xs[i] != xs[j]
  }

  predicate DistinctKeys(m: Assoc) {
    NoDuplicates(Keys(m))
  }

  /** `d.get(key)` */
  function Lookup(m: Assoc, key: string): Option<string> {
    if m == [] then None
    else if m[0].0 == key then Some(m[0].1)
    else Lookup(m[1..], key)
  }

  /** `d[key] = value`: the key now maps to `value`, every other key keeps
      its value, and a new key goes last while an existing one keeps its
      place. */
  function Put(m: Assoc, key: string, value: string): (r: Assoc)
    ensures Lookup(r, key) == Some(value)
    ensures forall k :: k != key ==> Lookup(r, k) == Lookup(m, k)
    ensures Keys(r) == if key in Keys(m) then Keys(m) else Keys(m) + [key]
  {
    if m == [] then [(key, value)]
    else if m[0].0 == key then
      assert Keys(m) == [key] + Keys(m[1..]);
      assert Keys([(key, value)] + m[1..]) == [key] + Keys(m[1..]);
      [(key, value)] + m[1..]
    else
      var rest := Put(m[1..], key, value);
      var r := [m[0]] + rest;
      assert r[1..] == rest;
      assert Keys(r) == [m[0].0] + Keys(rest);
      assert Keys(m) == [m[0].0] + Keys(m[1..]);
      r
  }

  /** Assigning every pair in turn to an initially empty dict. */
  function PutAll(pairs: seq<(string, string)>): Assoc {
    if pairs == [] then []
    else
      var last := pairs[|pairs| - 1];
      Put(PutAll(pairs[..|pairs| - 1]), last.0, last.1)
  }

  function Labels(pairs: seq<(string, string)>): seq<string> {
    seq(|pairs|, i requires 0 <= i < |pairs| => pairs[i].0)
  }

  /** The labels with later repeats removed, in order of first appearance. */
  function FirstOccurrences(labels: seq<string>): seq<string> {
    if labels == [] then []
    else
      var seen := FirstOccurrences(labels[..|labels| - 1]);
      var last := labels[|labels| - 1];
      if last in seen then seen else seen + [last]
  }

  lemma {:induction false} FirstOccurrencesCover(labels: seq<string>)
    ensures forall k :: k in FirstOccurrences(labels) <==> k in labels
    ensures NoDuplicates(FirstOccurrences(labels))
  {
    if labels != [] {
      var init := labels[..|labels| - 1];
      FirstOccurrencesCover(init);
      assert labels == init + [labels[|labels| - 1]];
    }
  }

  /** Pair `i` is the last one carrying its label. */
  predicate LastWithLabel(pairs: seq<(string, string)>, i: nat)
    requires i < |pairs|
  {
    forall j :: i < j < |pairs| ==> pairs[j].0 != pairs[i].0
  }

  /** The dict's keys are the row labels in order of first appearance,
      without repeats. */
  lemma {:induction false} PutAllKeysInFirstOrder(pairs: seq<(string, string)>)
    ensures Keys(PutAll(pairs)) == FirstOccurrences(Labels(pairs))
    ensures DistinctKeys(PutAll(pairs))
  {
    if pairs != [] {
      var n := |pairs| - 1;
      PutAllKeysInFirstOrder(pairs[..n]);
      assert Labels(pairs[..n]) == Labels(pairs)[..n];
      FirstOccurrencesCover(Labels(pairs));
    }
  }

  /** A key is found exactly when it is one of the dict's keys. */
  lemma {:induction false} LookupFindsKeys(m: Assoc, k: string)
    ensures Lookup(m, k).None? <==> k !in Keys(m)
  {
    if m != [] {
      LookupFindsKeys(m[1..], k);
    }
  }

  /** A label occurs among the labels exactly when some row carries it. */
  lemma LabelsCarried(pairs: seq<(string, string)>, k: string)
    ensures k in Labels(pairs) <==> exists i :: 0 <= i < |pairs| && pairs[i].0 == k
  {
    if k in Labels(pairs) {
      var i :| 0 <= i < |pairs| && Labels(pairs)[i] == k;
      assert pairs[i].0 == k;
    } else {
      forall i | 0 <= i < |pairs|
        ensures pairs[i].0 != k
      {
        assert Labels(pairs)[i] == pairs[i].0;
      }
    }
  }

  /** A label is absent from the dict exactly when no row carries it. */
  lemma PutAllAbsentLabels(pairs: seq<(string, string)>, k: string)
    ensures Lookup(PutAll(pairs), k).None? <==> forall i :: 0 <= i < |pairs| ==> pairs[i].0 != k
  {
    PutAllKeysInFirstOrder(pairs);
    FirstOccurrencesCover(Labels(pairs));
    LookupFindsKeys(PutAll(pairs), k);
    LabelsCarried(pairs, k);
  }

  /** The last row is assigned after all the others. */
  lemma PutAllLast(pairs: seq<(string, string)>)
    requires pairs != []
    ensures PutAll(pairs) == Put(PutAll(pairs[..|pairs| - 1]), pairs[|pairs| - 1].0, pairs[|pairs| - 1].1)
  {
  }

  /** A label maps to the value of the last row carrying it. */
  lemma {:induction false} PutAllLastWriteWins(pairs: seq<(string, string)>, i: nat)
    requires i < |pairs| && LastWithLabel(pairs, i)
    ensures Lookup(PutAll(pairs), pairs[i].0) == Some(pairs[i].1)
  {
    var n := |pairs| - 1;
    var init := pairs[..n];
    PutAllLast(pairs);
    if i < n {
      assert init[i] == pairs[i];
      assert LastWithLabel(init, i);
      PutAllLastWriteWins(init, i);
      assert pairs[i].0 != pairs[n].0;
    }
  }

  /** Scenario: rows Energy/250kcal, Fat/5g, Energy/260kcal give Energy
      (now 260kcal) then Fat. */
  lemma NutritionScenario()
    ensures PutAll([("Energy", "250kcal"), ("Fat", "5g"), ("Energy", "260kcal")])
         == [("Energy", "260kcal"), ("Fat", "5g")]
  {
    var pairs := [("Energy", "250kcal"), ("Fat", "5g"), ("Energy", "260kcal")];
    assert pairs[..2][..1] == [("Energy", "250kcal")];
    assert pairs[..2] == [("Energy", "250kcal"), ("Fat", "5g")];
    assert PutAll([("Energy", "250kcal")]) == [("Energy", "250kcal")];
    var two := PutAll(pairs[..2]);
    assert two == Put([("Energy", "250kcal")], "Fat", "5g");
    assert two == [("Energy", "250kcal"), ("Fat", "5g")];
    assert PutAll(pairs) == Put(two, "Energy", "260kcal");
  }

  // ---------------------------------------------------------------------
  // Nutrition table.

  /** The cells of one table row, in document order. */
  function Cells<N>(dom: Dom<N>, row: N): seq<N> {
    dom.select(row, NutritionCellSelector)
  }

  /** One table row: label and value from the text of its first two cells,
      when it has at least two. */
  function NutritionRow<N>(dom: Dom<N>, row: N): (r: Option<(string, string)>)
    ensures r.None? <==> |Cells(dom, row)| < 2
    ensures r.Some? ==> r.value == (GetText(dom, Cells(dom, row)[0]), GetText(dom, Cells(dom, row)[1]))
  {
    var cells := Cells(dom, row);
    if |cells| >= 2 then Some((GetText(dom, cells[0]), GetText(dom, cells[1]))) else None
  }

  /** What each row contributes, in row order. */
  function RowReadings<N>(dom: Dom<N>, rows: seq<N>): (r: seq<Option<(string, string)>>)
    ensures |r| == |rows|
    ensures forall i :: 0 <= i < |rows| ==> r[i] == NutritionRow(dom, rows[i])
  {
    seq(|rows|, i requires 0 <= i < |rows| => NutritionRow(dom, rows[i]))
  }

  /** The label/value pairs of the rows with two or more cells, in row
      order: the `j`-th pair is the reading of a row with two or more cells,
      at strictly increasing row positions, and every such row contributes
      one. */
  function NutritionPairs<N>(dom: Dom<N>, rows: seq<N>): (r: seq<(string, string)>)
    ensures var kept := KeptIndices(RowReadings(dom, rows));
      && |r| == |kept|
      && (forall j :: 0 <= j < |r| ==> kept[j] < |rows| && NutritionRow(dom, rows[kept[j]]) == Some(r[j]))
      && (forall j, k :: 0 <= j < k < |r| ==> kept[j] < kept[k])
      && (forall i :: 0 <= i < |rows| && |Cells(dom, rows[i])| >= 2 ==> i in kept)
  {
    CollectIsOrderedSubsequence(RowReadings(dom, rows));
    Collect(RowReadings(dom, rows))
  }

  /** Reading rows distributes over concatenation of the rows. */
  lemma RowReadingsAppend<N>(dom: Dom<N>, a: seq<N>, b: seq<N>)
    ensures RowReadings(dom, a + b) == RowReadings(dom, a) + RowReadings(dom, b)
  {
    var l, ra, rb := RowReadings(dom, a + b), RowReadings(dom, a), RowReadings(dom, b);
    forall i | 0 <= i < |l|
      ensures l[i] == (ra + rb)[i]
    {
      if i < |a| {
        assert (a + b)[i] == a[i];
        assert (ra + rb)[i] == ra[i];
      } else {
        assert (a + b)[i] == b[i - |a|];
        assert (ra + rb)[i] == rb[i - |a|];
      }
    }
  }

  /** A row with fewer than two cells contributes nothing, wherever it
      stands among the rows. */
  lemma ShortRowIgnored<N>(dom: Dom<N>, before: seq<N>, row: N, after: seq<N>)
    requires |Cells(dom, row)| < 2
    ensures NutritionPairs(dom, before + [row] + after) == NutritionPairs(dom, before + after)
  {
    var b, m, a := RowReadings(dom, before), RowReadings(dom, [row]), RowReadings(dom, after);
    RowReadingsAppend(dom, before + [row], after);
    RowReadingsAppend(dom, before, [row]);
    RowReadingsAppend(dom, before, after);
    assert m == [None];
    CollectSkipsAbsent(b, a);
  }

  /** `_extract_nutrition_info`: empty when there is no nutrition table;
      otherwise the rows' label/value pairs assigned in order, so that a
      repeated label keeps the last row's value. */
  function ExtractNutritionInfo<N>(dom: Dom<N>, soup: N): (r: Assoc)
    ensures SelectOne(dom, soup, NutritionTableSelector).None? ==> r == []
    ensures DistinctKeys(r)
  {
    match SelectOne(dom, soup, NutritionTableSelector)
    case None => []
    case Some(table) =>
      var pairs := NutritionPairs(dom, TableRows(dom, table));
      PutAllKeysInFirstOrder(pairs);
      PutAll(pairs)
  }

  /** The rows of the table `_extract_nutrition_info` reads. */
  function TableRows<N>(dom: Dom<N>, table: N): seq<N> {
    dom.select(table, NutritionRowSelector)
  }

  /** End to end: a row with two or more cells whose label no later such
      row repeats gives that label its value in the nutrition dict. */
  lemma NutritionLastRowWins<N>(dom: Dom<N>, soup: N, table: N, i: nat)
    requires SelectOne(dom, soup, NutritionTableSelector) == Some(table)
    requires i < |TableRows(dom, table)| && |Cells(dom, TableRows(dom, table)[i])| >= 2
    requires forall j :: i < j < |TableRows(dom, table)| && |Cells(dom, TableRows(dom, table)[j])| >= 2 ==>
      GetText(dom, Cells(dom, TableRows(dom, table)[j])[0]) != GetText(dom, Cells(dom, TableRows(dom, table)[i])[0])
    ensures Lookup(ExtractNutritionInfo(dom, soup), GetText(dom, Cells(dom, TableRows(dom, table)[i])[0]))
      == Some(GetText(dom, Cells(dom, TableRows(dom, table)[i])[1]))
  {
    var rows := TableRows(dom, table);
    var pairs, kept := NutritionPairs(dom, rows), KeptIndices(RowReadings(dom, rows));
    var j :| 0 <= j < |kept| && kept[j] == i;
    assert pairs[j] == NutritionRow(dom, rows[i]).value;
    forall k | j < k < |pairs|
      ensures pairs[k].0 != pairs[j].0
    {
      assert kept[j] < kept[k];
      assert NutritionRow(dom, rows[kept[k]]) == Some(pairs[k]);
    }
    PutAllLastWriteWins(pairs, j);
  }

  /** End to end: a label is missing from the nutrition dict exactly when
      there is no table or no row with two or more cells carries it. */
  lemma NutritionLabelAbsent<N>(dom: Dom<N>, soup: N, key: string)
    ensures Lookup(ExtractNutritionInfo(dom, soup), key).None? <==>
      (|| SelectOne(dom, soup, NutritionTableSelector).None?
       || forall i :: 0 <= i < |TableRows(dom, SelectOne(dom, soup, NutritionTableSelector).value)| ==>
            var row := TableRows(dom, SelectOne(dom, soup, NutritionTableSelector).value)[i];
            |Cells(dom, row)| >= 2 ==> GetText(dom, Cells(dom, row)[0]) != key)
  {
    match SelectOne(dom, soup, NutritionTableSelector)
    case None =>
    case Some(table) =>
      var rows := TableRows(dom, table);
      var pairs, kept := NutritionPairs(dom, rows), KeptIndices(RowReadings(dom, rows));
      PutAllAbsentLabels(pairs, key);
      if exists k :: 0 <= k < |pairs| && pairs[k].0 == key {
        var k :| 0 <= k < |pairs| && pairs[k].0 == key;
        assert NutritionRow(dom, rows[kept[k]]) == Some(pairs[k]);
      }
      if exists i :: 0 <= i < |rows| && |Cells(dom, rows[i])| >= 2 && GetText(dom, Cells(dom, rows[i])[0]) == key {
        var i :| 0 <= i < |rows| && |Cells(dom, rows[i])| >= 2 && GetText(dom, Cells(dom, rows[i])[0]) == key;
        var k :| 0 <= k < |kept| && kept[k] == i;
        assert pairs[k] == NutritionRow(dom, rows[i]).value;
      }
  }

  // ---------------------------------------------------------------------
  // Numbers in text: `re.search(r'(\d+)', s)` and
  // `re.search(r'(\d+\.?\d*)', s)` (ASCII digits).

  /** Index of the first digit at or after `from`, `|s|` if there is none. */
  function DigitSearch(s: string, from: nat): (i: nat)
    requires from <= |s|
    ensures from <= i <= |s|
    ensures forall k :: from <= k < i ==> !IsDigit(s[k])
    ensures i < |s| ==> IsDigit(s[i])
    decreases |s| - from
  {
    if from < |s| && !IsDigit(s[from]) then DigitSearch(s, from + 1) else from
  }

  /** End of the maximal run of digits starting at `from` (greedy `\d*`). */
  function DigitRunEnd(s: string, from: nat): (j: nat)
    requires from <= |s|
    ensures from <= j <= |s|
    ensures forall k :: from <= k < j ==> IsDigit(s[k])
    ensures j < |s| ==> !IsDigit(s[j])
    decreases |s| - from
  {
    if from < |s| && IsDigit(s[from]) then DigitRunEnd(s, from + 1) else from
  }

  /** The leftmost match of `\d+`, as a span: there is no digit before it,
      it is all digits, and it cannot be extended. Absent exactly when the
      text has no digit. */
  function IntegerSpan(s: string): (r: Option<(nat, nat)>)
    ensures r.None? <==> NoDigit(s)
    ensures r.Some? ==> r.value.0 < r.value.1 <= |s|
    ensures r.Some? ==> forall k :: 0 <= k < r.value.0 ==> !IsDigit(s[k])
    ensures r.Some? ==> forall k :: r.value.0 <= k < r.value.1 ==> IsDigit(s[k])
    ensures r.Some? ==> r.value.1 == |s| || !IsDigit(s[r.value.1])
  {
    var i := DigitSearch(s, 0);
    if i == |s| then None else Some((i, DigitRunEnd(s, i)))
  }

  /** `int(re.search(r'(\d+)', text).group(1))`, or absent when the text
      has no digit. */
  function ParseReviewCount(text: string): (r: Option<nat>)
    ensures r.None? <==> NoDigit(text)
  {
    match IntegerSpan(text)
    case None => None
    case Some(span) => Some(ParseNat(text[span.0..span.1]))
  }

  /** The span of a leftmost, maximal digit run is determined by the text. */
  lemma SpanIsUnique(s: string, i: nat, j: nat)
    requires i < j <= |s|
    requires forall k :: 0 <= k < i ==> !IsDigit(s[k])
    requires forall k :: i <= k < j ==> IsDigit(s[k])
    requires j == |s| || !IsDigit(s[j])
    ensures DigitSearch(s, 0) == i && DigitRunEnd(s, i) == j
  {
    assert IsDigit(s[i]);
    var b := DigitRunEnd(s, i);
    assert b < |s| ==> !IsDigit(s[b]);
  }

  /** A leftmost, maximal digit run is the one the count is read from. */
  lemma ReviewCountReadsSpan(s: string, i: nat, j: nat)
    requires i < j <= |s|
    requires forall k :: 0 <= k < i ==> !IsDigit(s[k])
    requires forall k :: i <= k < j ==> IsDigit(s[k])
    requires j == |s| || !IsDigit(s[j])
    ensures ParseReviewCount(s) == Some(ParseNat(s[i..j]))
  {
    SpanIsUnique(s, i, j);
  }

  /** A count written as `str(n)` between digit-free text and text not
      starting with a digit reads back as `n`. */
  lemma ReviewCountRoundTrip(before: string, n: nat, after: string)
    requires NoDigit(before)
    requires after == [] || !IsDigit(after[0])
    ensures ParseReviewCount(before + ShowNat(n) + after) == Some(n)
  {
    var d := ShowNat(n);
    var s := before + d + after;
    var i, j := |before|, |before| + |d|;
    forall k | 0 <= k < i
      ensures !IsDigit(s[k])
    {
      assert s[k] == before[k];
    }
    forall k | i <= k < j
      ensures IsDigit(s[k])
    {
      assert s[k] == d[k - i];
    }
    assert j < |s| ==> s[j] == after[0];
    assert s[i..j] == d;
    ReviewCountReadsSpan(s, i, j);
    ParseShowNat(n);
  }

  /** `re.search(r'(\d+\.?\d*)', text).group(1)`: the first digit run,
      then a '.' and the digit run after it when the run is followed by
      '.'. Absent exactly when the text has no digit. */
  function ParseRating(text: string): (r: Option<DecimalToken>)
    ensures r.None? <==> NoDigit(text)
    ensures r.Some? ==> |r.value.whole| > 0 && AllDigits(r.value.whole) && AllDigits(r.value.fraction)
    ensures r.Some? && !r.value.point ==> r.value.fraction == []
  {
    var i := DigitSearch(text, 0);
    if i == |text| then None
    else
      var j := DigitRunEnd(text, i);
      if j < |text| && text[j] == '.' then
        var k := DigitRunEnd(text, j + 1);
        Some(DecimalToken(text[i..j], true, text[j + 1..k]))
      else
        Some(DecimalToken(text[i..j], false, []))
  }

  /** A rating written as digits, '.', digits reads back as that token. */
  lemma RatingRoundTripWithPoint(before: string, whole: string, fraction: string, after: string)
    requires NoDigit(before)
    requires |whole| > 0 && AllDigits(whole) && AllDigits(fraction)
    requires after == [] || !IsDigit(after[0])
    ensures ParseRating(before + whole + "." + fraction + after) == Some(DecimalToken(whole, true, fraction))
  {
    var s := before + whole + "." + fraction + after;
    var i, j := |before|, |before| + |whole|;
    var k := j + 1 + |fraction|;
    assert forall x :: 0 <= x < i ==> s[x] == before[x];
    assert forall x :: i <= x < j ==> s[x] == whole[x - i];
    assert s[j] == '.';
    assert forall x :: j + 1 <= x < k ==> s[x] == fraction[x - j - 1];
    assert k < |s| ==> s[k] == after[0];
    assert s[i..j] == whole by {
      assert forall x :: 0 <= x < |whole| ==> s[i..j][x] == whole[x];
    }
    assert s[j + 1..k] == fraction by {
      assert forall x :: 0 <= x < |fraction| ==> s[j + 1..k][x] == fraction[x];
    }
    RatingReadsSpan(s, i, j, k);
  }

  /** A leftmost, maximal digit run followed by '.' and a maximal digit
      run is the token the rating is read from. */
  lemma RatingReadsSpan(s: string, i: nat, j: nat, k: nat)
    requires i < j < k <= |s|
    requires forall x :: 0 <= x < i ==> !IsDigit(s[x])
    requires forall x :: i <= x < j ==> IsDigit(s[x])
    requires s[j] == '.'
    requires forall x :: j < x < k ==> IsDigit(s[x])
    requires k == |s| || !IsDigit(s[k])
    ensures ParseRating(s) == Some(DecimalToken(s[i..j], true, s[j + 1..k]))
  {
    SpanIsUnique(s, i, j);
    var e := DigitRunEnd(s, j + 1);
    assert e < |s| ==> !IsDigit(s[e]);
  }

  /** A rating written as digits not followed by '.' or a digit reads back
      as a whole number token. */
  lemma RatingRoundTripWhole(before: string, whole: string, after: string)
    requires NoDigit(before)
    requires |whole| > 0 && AllDigits(whole)
    requires after == [] || (!IsDigit(after[0]) && after[0] != '.')
    ensures ParseRating(before + whole + after) == Some(DecimalToken(whole, false, []))
  {
    var s := before + whole + after;
    var i, j := |before|, |before| + |whole|;
    assert forall x :: 0 <= x < i ==> s[x] == before[x];
    assert forall x :: i <= x < j ==> s[x] == whole[x - i];
    assert j < |s| ==> s[j] == after[0];
    SpanIsUnique(s, i, j);
    assert s[i..j] == whole;
  }

  // ---------------------------------------------------------------------
  // The detail bundle.

  /** The `reviews` dict: both entries start as `None`. */
  datatype ReviewSummary = ReviewSummary(rating: Option<DecimalToken>, reviewCount: Option<nat>)

  /** The dict `get_product_details` returns when its request succeeds. */
  datatype DetailBundle = DetailBundle(
    description: Option<string>,
    ingredients: Option<string>,
    nutrition: Assoc,
    reviews: ReviewSummary)

  /** `_extract_review_info`: each entry is present exactly when its element
      exists and its text holds a digit; malformed text gives absence, never
      an error. */
  function ExtractReviewInfo<N>(dom: Dom<N>, soup: N): (r: ReviewSummary)
    ensures r.rating.Some? <==> (SelectOne(dom, soup, RatingSelector).Some?
      && !NoDigit(GetText(dom, SelectOne(dom, soup, RatingSelector).value)))
    ensures r.reviewCount.Some? <==> (SelectOne(dom, soup, ReviewCountSelector).Some?
      && !NoDigit(GetText(dom, SelectOne(dom, soup, ReviewCountSelector).value)))
    ensures SelectOne(dom, soup, RatingSelector).None? ==> r.rating.None?
    ensures SelectOne(dom, soup, RatingSelector).Some? ==>
      r.rating == ParseRating(GetText(dom, SelectOne(dom, soup, RatingSelector).value))
    ensures SelectOne(dom, soup, ReviewCountSelector).None? ==> r.reviewCount.None?
    ensures SelectOne(dom, soup, ReviewCountSelector).Some? ==>
      r.reviewCount == ParseReviewCount(GetText(dom, SelectOne(dom, soup, ReviewCountSelector).value))
  {
    var rating := match SelectOne(dom, soup, RatingSelector)
      case None => None
      case Some(e) => ParseRating(GetText(dom, e));
    var reviewCount := match SelectOne(dom, soup, ReviewCountSelector)
      case None => None
      case Some(e) => ParseReviewCount(GetText(dom, e));
    ReviewSummary(rating, reviewCount)
  }

  /** `get_product_details`: `None` (the empty dict) exactly when the
      request raised; otherwise description and ingredients from their
      chains, the nutrition dict and the review summary. */
  function GetProductDetails<N>(dom: Dom<N>, fetch: string -> Fetch<N>, productUrl: string): (r: Option<DetailBundle>)
    ensures r.None? <==> fetch(productUrl).RequestFailed?
    ensures r.Some? ==> DistinctKeys(r.value.nutrition)
    ensures r.Some? && r.value.description.Some? ==> r.value.description.value != []
    ensures r.Some? && r.value.ingredients.Some? ==> r.value.ingredients.value != []
    ensures fetch(productUrl).Fetched? ==>
      var doc := fetch(productUrl).doc;
      && r.value.description == TextBySelectors(dom, doc, DescriptionSelectors)
      && r.value.ingredients == TextBySelectors(dom, doc, IngredientsSelectors)
      && r.value.nutrition == ExtractNutritionInfo(dom, doc)
      && r.value.reviews == ExtractReviewInfo(dom, doc)
  {
    match fetch(productUrl)
    case RequestFailed => None
    case Fetched(doc) =>
      Some(DetailBundle(
        TextBySelectors(dom, doc, DescriptionSelectors),
        TextBySelectors(dom, doc, IngredientsSelectors),
        ExtractNutritionInfo(dom, doc),
        ExtractReviewInfo(dom, doc)))
  }
}

=== FILE: export.dfy ===
/** The row mapping and empty-input guard shared by `save_to_csv` and
    `save_to_json`: one dict per product, in input order, with ten keys in a
    fixed order. */
module Export {
  import opened Wrappers
  import opened Catalog

  /** A cell of an exported row: JSON `null` / an empty CSV cell, a string,
      an integer, or a number (the rating token). */
  datatype Value = Null | Text(text: string) | Count(count: nat) | Number(token: DecimalToken)

  const FieldOrder: seq<string> := [
    "name", "price", "price_per_unit", "image_url", "product_url",
    "availability", "rating", "review_count", "description", "brand"]

  /** One `product_dict`: key/value pairs in insertion order. */
  type Row = seq<(string, Value)>

  function OptionalText(o: Option<string>): Value {
    match o
    case None => Null
    case Some(s) => Text(s)
  }

  /** The dict literal built for each product. */
  function ToRow(p: Product): (row: Row)
    ensures |row| == |FieldOrder|
    ensures forall i :: 0 <= i < |row| ==> row[i].0 == FieldOrder[i]
  {
    [ ("name", Text(p.name)),
      ("price", Text(p.price)),
      ("price_per_unit", OptionalText(p.pricePerUnit)),
      ("image_url", OptionalText(p.imageUrl)),
      ("product_url", Text(p.productUrl)),
      ("availability", Text(p.availability)),
      ("rating", match p.rating case None => Null case Some(t) => Number(t)),
      ("review_count", match p.reviewCount case None => Null case Some(n) => Count(n)),
      ("description", OptionalText(p.description)),
      ("brand", OptionalText(p.brand)) ]
  }

  function RowKeys(row: Row): seq<string> {
    seq(|row|, i requires 0 <= i < |row| => row[i].0)
  }

  function RowValues(row: Row): seq<Value> {
    seq(|row|, i requires 0 <= i < |row| => row[i].1)
  }

  function AsText(v: Value): Option<string> {
    if v.Text? then Some(v.text) else None
  }

  function AsOptionalText(v: Value): Option<Option<string>> {
    match v
    case Null => Some(None)
    case Text(s) => Some(Some(s))
    case _ => None
  }

  function AsOptionalCount(v: Value): Option<Option<nat>> {
    match v
    case Null => Some(None)
    case Count(n) => Some(Some(n))
    case _ => None
  }

  function AsOptionalNumber(v: Value): Option<Option<DecimalToken>> {
    match v
    case Null => Some(None)
    case Number(t) => Some(Some(t))
    case _ => None
  }

  /** Reading an exported row back: the ten keys in the fixed order, each
      value of its field's type, `null` for an absent optional. */
  function FromRow(row: Row): Option<Product> {
    if RowKeys(row) != FieldOrder then None
    else
      var name :- AsText(row[0].1);
      var price :- AsText(row[1].1);
      var unitPrice :- AsOptionalText(row[2].1);
      var image :- AsOptionalText(row[3].1);
      var url :- AsText(row[4].1);
      var availability :- AsText(row[5].1);
      var rating :- AsOptionalNumber(row[6].1);
      var reviews :- AsOptionalCount(row[7].1);
      var description :- AsOptionalText(row[8].1);
      var brand :- AsOptionalText(row[9].1);
      Some(Product(name, price, unitPrice, image, url, availability, rating, reviews, description, brand))
  }

  /** Reading an exported row back gives the product field for field;
      absent optionals come back absent, not omitted. */
  lemma RowRoundTrip(p: Product)
    ensures FromRow(ToRow(p)) == Some(p)
  {
    var row := ToRow(p);
    assert RowKeys(row) == FieldOrder;
  }

  /** The rows of the export, one per product, in input order. */
  function ProductDicts(products: seq<Product>): (rows: seq<Row>)
    ensures |rows| == |products|
    ensures forall i :: 0 <= i < |rows| ==> RowKeys(rows[i]) == FieldOrder
    ensures forall i :: 0 <= i < |rows| ==> FromRow(rows[i]) == Some(products[i])
  {
    var rows := seq(|products|, i requires 0 <= i < |products| => ToRow(products[i]));
    assert forall i :: 0 <= i < |rows| ==> RowKeys(rows[i]) == FieldOrder by {
      forall i | 0 <= i < |rows| ensures RowKeys(rows[i]) == FieldOrder {
        assert rows[i] == ToRow(products[i]);
      }
    }
    assert forall i :: 0 <= i < |rows| ==> FromRow(rows[i]) == Some(products[i]) by {
      forall i | 0 <= i < |rows| ensures FromRow(rows[i]) == Some(products[i]) {
        RowRoundTrip(products[i]);
      }
    }
    rows
  }

  /** `save_to_json`: skipped (`None`) exactly when there are no products;
      otherwise an array of one object per product, in input order, each
      with the fixed keys and reading back to its product. */
  function SaveToJson(products: seq<Product>): (r: Option<seq<Row>>)
    ensures r.None? <==> |products| == 0
    ensures r.Some? ==> |r.value| == |products|
    ensures r.Some? ==> forall i :: 0 <= i < |products| ==>
      RowKeys(r.value[i]) == FieldOrder && FromRow(r.value[i]) == Some(products[i])
  {
    if |products| == 0 then None else Some(ProductDicts(products))
  }

  /** A CSV table: header row, then one row of cells per product. */
  datatype CsvTable = CsvTable(header: seq<string>, rows: seq<seq<Value>>)

  /** `save_to_csv`: skipped exactly when there are no products; otherwise
      the header is the fixed key order and each row holds the values of
      the corresponding product's dict in that order. */
  function SaveToCsv(products: seq<Product>): (r: Option<CsvTable>)
    ensures r.None? <==> |products| == 0
    ensures r.Some? ==> r.value.header == FieldOrder && |r.value.rows| == |products|
    ensures r.Some? ==> forall i :: 0 <= i < |products| ==> |r.value.rows[i]| == |FieldOrder|
  {
    if |products| == 0 then None
    else
      var dicts := ProductDicts(products);
      Some(CsvTable(FieldOrder, seq(|dicts|, i requires 0 <= i < |dicts| => RowValues(dicts[i]))))
  }

  /** Both exports agree: the CSV header is the JSON key order and each CSV
      row is the corresponding JSON object's values, so the CSV also reads
      back to the products. */
  lemma ExportsAgree(products: seq<Product>)
    requires |products| > 0
    ensures var csv, json := SaveToCsv(products).value, SaveToJson(products).value;
      && csv.header == FieldOrder
      && forall i :: 0 <= i < |products| ==>
           RowKeys(json[i]) == csv.header
           && csv.rows[i] == RowValues(json[i])
           && FromRow(seq(|FieldOrder|, k requires 0 <= k < |FieldOrder| => (csv.header[k], csv.rows[i][k]))) == Some(products[i])
  {
    var csv, json := SaveToCsv(products).value, SaveToJson(products).value;
    forall i | 0 <= i < |products|
      ensures FromRow(seq(|FieldOrder|, k requires 0 <= k < |FieldOrder| => (csv.header[k], csv.rows[i][k]))) == Some(products[i])
    {
      var rebuilt := seq(|FieldOrder|, k requires 0 <= k < |FieldOrder| => (csv.header[k], csv.rows[i][k]));
      assert rebuilt == json[i];
    }
  }
}

=== FILE: extract.dfy ===
/** The field extractor: ordered fallback chains of CSS selectors, tried in
    order until one yields a usable value. One generic resolver serves the
    text chains, the `href`/`src` attribute chains and the tile-container
    chain. */
module Extract {
  import opened Wrappers
  import opened Markup

  /** Index of the first rule whose probe succeeds. */
  function FirstHit<T>(rules: seq<string>, probe: string -> Option<T>): (r: Option<nat>)
    ensures r.None? <==> forall i :: 0 <= i < |rules| ==> probe(rules[i]).None?
    ensures r.Some? ==> r.value < |rules| && probe(rules[r.value]).Some?
    ensures r.Some? ==> forall j :: 0 <= j < r.value ==> probe(rules[j]).None?
  {
    if rules == [] then None
    else if probe(rules[0]).Some? then Some(0)
    else
      match FirstHit(rules[1..], probe)
      case None => None
      case Some(i) => Some(i + 1)
  }

  /** The value produced by the first succeeding rule. */
  function Resolve<T>(rules: seq<string>, probe: string -> Option<T>): (r: Option<T>)
    ensures r.None? <==> forall i :: 0 <= i < |rules| ==> probe(rules[i]).None?
  {
    match FirstHit(rules, probe)
    case None => None
    case Some(i) => probe(rules[i])
  }

  /** Rules after the winning one are never consulted: replacing them
      changes nothing. */
  lemma {:induction false} FirstHitIgnoresLaterRules<T>(rules: seq<string>, later: seq<string>, probe: string -> Option<T>)
    requires FirstHit(rules, probe).Some?
    ensures FirstHit(rules + later, probe) == FirstHit(rules, probe)
  {
    if probe(rules[0]).None? {
      assert (rules + later)[1..] == rules[1..] + later;
      FirstHitIgnoresLaterRules(rules[1..], later, probe);
    }
  }

  /** Text of the first match of one selector, kept only when non-empty. */
  function FirstMatchText<N>(dom: Dom<N>, n: N, css: string): Option<string> {
    match SelectOne(dom, n, css)
    case None => None
    case Some(e) =>
      var text := GetText(dom, e);
      if text != [] then Some(text) else None
  }

  /** `_get_text_by_selectors`: the stripped text of the first match of the
      first selector whose first match has non-empty text. A selector with
      no match, or whose first match is blank, falls through to the next;
      the result is absent only if no selector qualifies. */
  function TextBySelectors<N>(dom: Dom<N>, n: N, selectors: seq<string>): (r: Option<string>)
    ensures r.Some? ==> r.value != [] && Text.Strip(r.value) == r.value
    ensures r.None? <==> forall i :: 0 <= i < |selectors| ==> FirstMatchText(dom, n, selectors[i]).None?
    ensures r.Some? ==> exists i :: (0 <= i < |selectors|
      && FirstMatchText(dom, n, selectors[i]) == r
      && forall j :: 0 <= j < i ==> FirstMatchText(dom, n, selectors[j]).None?)
  {
    Resolve(selectors, css => FirstMatchText(dom, n, css))
  }

  /** A non-empty value of attribute `name` on the first match of one
      selector (`el.get(name)` is falsy when missing or empty). */
  function FirstMatchAttr<N>(dom: Dom<N>, n: N, css: string, name: string): Option<string> {
    match SelectOne(dom, n, css)
    case None => None
    case Some(e) =>
      match dom.attr(e, name)
      case None => None
      case Some(v) => if v != [] then Some(v) else None
  }

  /** The link and image loops: the attribute of the first selector whose
      first match carries a non-empty value of it. */
  function AttrBySelectors<N>(dom: Dom<N>, n: N, selectors: seq<string>, name: string): (r: Option<string>)
    ensures r.Some? ==> r.value != []
    ensures r.None? <==> forall i :: 0 <= i < |selectors| ==> FirstMatchAttr(dom, n, selectors[i], name).None?
    ensures r.Some? ==> exists i :: (0 <= i < |selectors|
      && FirstMatchAttr(dom, n, selectors[i], name) == r
      && forall j :: 0 <= j < i ==> FirstMatchAttr(dom, n, selectors[j], name).None?)
  {
    Resolve(selectors, css => FirstMatchAttr(dom, n, css, name))
  }

  /** All matches of one container selector, kept when there is at least one. */
  function ContainerMatches<N>(dom: Dom<N>, doc: N, css: string): Option<seq<N>> {
    var found := dom.select(doc, css);
    if |found| > 0 then Some(found) else None
  }

  /** The tile locator of `_parse_product_listing`: the full match list of
      the first container selector that matches anything; empty when none
      does. */
  function LocateTiles<N>(dom: Dom<N>, doc: N, containers: seq<string>): (r: seq<N>)
    ensures |r| == 0 <==> forall i :: 0 <= i < |containers| ==> |dom.select(doc, containers[i])| == 0
  {
    Resolve(containers, css => ContainerMatches(dom, doc, css)).GetOr([])
  }

  /** The located tiles are exactly the matches of the winning container
      selector, every earlier selector matched nothing, and selectors after
      it are never consulted. */
  lemma TilesComeFromFirstMatchingContainer<N>(dom: Dom<N>, doc: N, containers: seq<string>, later: seq<string>)
    requires exists i :: 0 <= i < |containers| && |dom.select(doc, containers[i])| > 0
    ensures exists i :: (0 <= i < |containers|
      && LocateTiles(dom, doc, containers) == dom.select(doc, containers[i])
      && forall j :: 0 <= j < i ==> |dom.select(doc, containers[j])| == 0)
    ensures LocateTiles(dom, doc, containers + later) == LocateTiles(dom, doc, containers)
  {
    var probe := css => ContainerMatches(dom, doc, css);
    var hit := FirstHit(containers, probe);
    var i := hit.value;
    assert forall j :: 0 <= j < i ==> probe(containers[j]).None?;
    FirstHitIgnoresLaterRules(containers, later, probe);
  }

  /** A chain whose first selector matches nothing, or only blank text,
      falls through to the rest of the chain. */
  lemma BlankFirstMatchFallsThrough<N>(dom: Dom<N>, n: N, selectors: seq<string>)
    requires |selectors| > 0
    requires FirstMatchText(dom, n, selectors[0]).None?
    ensures TextBySelectors(dom, n, selectors) == TextBySelectors(dom, n, selectors[1..])
  {
  }

  /** Once a selector yields non-empty text, the selectors after it do not
      matter. */
  lemma FirstNonBlankSelectorWins<N>(dom: Dom<N>, n: N, selectors: seq<string>, later: seq<string>)
    requires TextBySelectors(dom, n, selectors).Some?
    ensures TextBySelectors(dom, n, selectors + later) == TextBySelectors(dom, n, selectors)
  {
    FirstHitIgnoresLaterRules(selectors, later, css => FirstMatchText(dom, n, css));
  }
}

=== FILE: markup.dfy ===
/** The parsed-document interface the scraper uses, kept abstract: CSS
    selector matching, a node's text fragments and its attributes are
    supplied as total functions over an opaque node type `N`. */
module Markup {
  import opened Wrappers
  import opened Text

  /** A parsed HTML document as seen through BeautifulSoup:
      - `select(n, css)`: every descendant of `n` matching `css`, in
        document order (`Tag.select`);
      - `strings(n)`: the text fragments below `n`, in document order;
      - `attr(n, name)`: the attribute value (`Tag.get`), absent when the
        attribute is not set. */
  datatype Dom<!N> = Dom(
    select: (N, string) -> seq<N>,
    strings: N -> seq<string>,
    attr: (N, string) -> Option<string>)

  /** The outcome of `session.get(url)` followed by `raise_for_status()`
      and parsing: a document, or a `RequestException` (a transport error
      or a non-2xx status). */
  datatype Fetch<N> = Fetched(doc: N) | RequestFailed

  /** `Tag.select_one`: the first match in document order, if any. A found
      tag is always truthy, so `if found:` only tests for presence. */
  function SelectOne<N>(dom: Dom<N>, n: N, css: string): (r: Option<N>)
    ensures r.None? <==> dom.select(n, css) == []
    ensures r.Some? ==> r.value == dom.select(n, css)[0]
  {
    var found := dom.select(n, css);
    if |found| > 0 then Some(found[0]) else None
  }

  /** `separator.join` over the stripped fragments, empty ones skipped. */
  function JoinStripped(fragments: seq<string>): (r: string)
    ensures IsStripped(r)
    ensures r == [] <==> forall i :: 0 <= i < |fragments| ==> Strip(fragments[i]) == []
  {
    if fragments == [] then []
    else
      var head := Strip(fragments[0]);
      var tail := JoinStripped(fragments[1..]);
      ConcatStripped(head, tail);
      assert forall i :: 1 <= i < |fragments| ==> fragments[i] == fragments[1..][i - 1];
      head + tail
  }

  /** `Tag.get_text(strip=True)`: the node's fragments, each stripped, the
      empty ones dropped, joined with no separator. The result never has
      surrounding whitespace, and it is empty exactly when every fragment
      is blank. */
  function GetText<N>(dom: Dom<N>, n: N): (r: string)
    ensures IsStripped(r)
    ensures r == [] <==> forall i :: 0 <= i < |dom.strings(n)| ==> Strip(dom.strings(n)[i]) == []
  {
    JoinStripped(dom.strings(n))
  }
}

=== FILE: pagination.dfy ===
/** The pagination controller behind `search_products` and
    `scrape_category`: pages 1, 2, ... up to `max_pages` are fetched in
    order, and the run stops at the first page that fails to fetch or
    parses to no products, keeping everything gathered before it. */
module Pagination {
  import opened Wrappers
  import opened Text
  import opened Markup
  import opened Catalog

  /** What one page contributes: `None` when its request raised, otherwise
      the products parsed from it (possibly none). */
  type PageLoader<T> = nat -> Option<seq<T>>

  /** The products a run returns, together with the page numbers it
      requested, in request order. Only `items` is returned by the scraper;
      `fetched` records its requests. */
  datatype Crawl<T> = Crawl(items: seq<T>, fetched: seq<nat>)

  /** Page `page` fetched and parsed to at least one product, so the loop
      goes on past it. */
  predicate Continues<T>(load: PageLoader<T>, page: nat) {
    load(page).Some? && |load(page).value| > 0
  }

  /** The loop from page `page` on: requests are for `page`, `page + 1`, ...
      and never beyond `maxPages`. */
  function CrawlFrom<T>(load: PageLoader<T>, page: nat, maxPages: int): (c: Crawl<T>)
    ensures forall i :: 0 <= i < |c.fetched| ==> c.fetched[i] == page + i
    ensures |c.fetched| <= if maxPages < page then 0 else maxPages - page + 1
    decreases maxPages - page
  {
    if page > maxPages then Crawl([], [])
    else if !Continues(load, page) then Crawl([], [page])
    else
      var rest := CrawlFrom(load, page + 1, maxPages);
      Crawl(load(page).value + rest.items, [page] + rest.fetched)
  }

  /** The products of `count` consecutive pages starting at `first`, page
      after page. */
  function Gathered<T>(load: PageLoader<T>, first: nat, count: nat): seq<T> {
    if count == 0 then [] else Gathered(load, first, count - 1) + load(first + count - 1).GetOr([])
  }

  /** Peeling the first page off a gathering. */
  lemma {:induction false} GatheredFirstPage<T>(load: PageLoader<T>, first: nat, count: nat)
    ensures Gathered(load, first, count + 1) == load(first).GetOr([]) + Gathered(load, first + 1, count)
  {
    if count > 0 {
      GatheredFirstPage(load, first, count - 1);
    }
  }

  /** Gathering fewer pages yields a prefix: later pages only append. */
  lemma {:induction false} GatheredPrefix<T>(load: PageLoader<T>, first: nat, m: nat, count: nat)
    requires m <= count
    ensures Gathered(load, first, m) <= Gathered(load, first, count)
  {
    if m < count {
      GatheredPrefix(load, first, m, count - 1);
    }
  }

  /** Number of pages whose products a run of `c` kept: every fetched page
      except a final one that failed or was empty. */
  function KeptPages<T>(load: PageLoader<T>, page: nat, c: Crawl<T>): nat {
    if |c.fetched| > 0 && !Continues(load, page + |c.fetched| - 1) then |c.fetched| - 1 else |c.fetched|
  }

  /** The loop from page `page` against an independent description: every
      fetched page but the last continued; the last fetched page is either
      the first that failed or was empty, or the page limit; and the result
      is the concatenation of the kept pages. */
  lemma {:induction false} CrawlFromStopsAtFirstEmptyOrFailedPage<T>(load: PageLoader<T>, page: nat, maxPages: int)
    ensures var c := CrawlFrom(load, page, maxPages);
      && (page <= maxPages ==> |c.fetched| >= 1)
      && (forall p :: page <= p < page + |c.fetched| - 1 ==> Continues(load, p))
      && (|c.fetched| > 0 && page + |c.fetched| - 1 < maxPages ==> !Continues(load, page + |c.fetched| - 1))
      && c.items == Gathered(load, page, KeptPages(load, page, c))
    decreases maxPages - page
  {
    var c := CrawlFrom(load, page, maxPages);
    if page <= maxPages && Continues(load, page) {
      var rest := CrawlFrom(load, page + 1, maxPages);
      CrawlFromStopsAtFirstEmptyOrFailedPage(load, page + 1, maxPages);
      assert c.fetched == [page] + rest.fetched;
      assert KeptPages(load, page, c) == KeptPages(load, page + 1, rest) + 1;
      GatheredFirstPage(load, page, KeptPages(load, page + 1, rest));
    }
  }

  /** The whole run, as the scraper starts it. It requests pages 1, 2, ...
      in order, never page 0 and never more than `maxPages` of them; it
      stops at the first page that fails or parses to no products, or at
      the limit; and it returns the concatenation of the earlier pages'
      products, of which every page's contribution stays a prefix. */
  lemma RunStopsAtFirstEmptyOrFailedPage<T>(load: PageLoader<T>, maxPages: int)
    ensures var c := CrawlFrom(load, 1, maxPages);
      && |c.fetched| <= (if maxPages < 1 then 0 else maxPages)
      && (forall i :: 0 <= i < |c.fetched| ==> c.fetched[i] == i + 1)
      && (maxPages >= 1 ==> |c.fetched| >= 1)
      && (forall p :: 1 <= p < |c.fetched| ==> Continues(load, p))
      && (0 < |c.fetched| < maxPages ==> !Continues(load, |c.fetched|))
      && c.items == Gathered(load, 1, KeptPages(load, 1, c))
      && (forall m :: 0 <= m <= KeptPages(load, 1, c) ==> Gathered(load, 1, m) <= c.items)
  {
    var c := CrawlFrom(load, 1, maxPages);
    CrawlFromStopsAtFirstEmptyOrFailedPage(load, 1, maxPages);
    forall m | 0 <= m <= KeptPages(load, 1, c)
      ensures Gathered(load, 1, m) <= c.items
    {
      GatheredPrefix(load, 1, m, KeptPages(load, 1, c));
    }
  }

  /** Scenario: 20 products on page 1 and none on page 2, with a limit of
      5 pages. The run requests pages 1 and 2 and returns page 1's
      products. */
  lemma EmptySecondPageScenario<T>(load: PageLoader<T>)
    requires load(1).Some? && |load(1).value| == 20
    requires load(2) == Some([])
    ensures CrawlFrom(load, 1, 5) == Crawl(load(1).value, [1, 2])
    ensures |CrawlFrom(load, 1, 5).items| == 20
  {
  }

  /** Scenario: 15 products on page 1, then page 2's request fails. The
      15 products are returned. */
  lemma FailedSecondPageScenario<T>(load: PageLoader<T>)
    requires load(1).Some? && |load(1).value| == 15
    requires load(2).None?
    ensures CrawlFrom(load, 1, 5) == Crawl(load(1).value, [1, 2])
    ensures |CrawlFrom(load, 1, 5).items| == 15
  {
  }

  /** Every product of a run comes from some page, so what holds of every
      page's products holds of the run's. */
  lemma {:induction false} CrawlItemsComeFromPages<T>(load: PageLoader<T>, page: nat, maxPages: int, ok: T -> bool)
    requires forall p :: load(p).Some? ==> forall k :: 0 <= k < |load(p).value| ==> ok(load(p).value[k])
    ensures forall k :: 0 <= k < |CrawlFrom(load, page, maxPages).items| ==> ok(CrawlFrom(load, page, maxPages).items[k])
    decreases maxPages - page
  {
    if page <= maxPages && Continues(load, page) {
      CrawlItemsComeFromPages(load, page + 1, maxPages, ok);
      var first, rest := load(page).value, CrawlFrom(load, page + 1, maxPages).items;
      assert forall k :: |first| <= k < |first| + |rest| ==> (first + rest)[k] == rest[k - |first|];
    }
  }

  /** A loop step past a page that continues: its products are appended
      and the rest of the run is the run from the next page. */
  lemma CrawlStepContinues<T>(load: PageLoader<T>, page: nat, maxPages: int, items: seq<T>, fetched: seq<nat>, total: Crawl<T>)
    requires page <= maxPages && Continues(load, page)
    requires items + CrawlFrom(load, page, maxPages).items == total.items
    requires fetched + CrawlFrom(load, page, maxPages).fetched == total.fetched
    ensures (items + load(page).value) + CrawlFrom(load, page + 1, maxPages).items == total.items
    ensures (fetched + [page]) + CrawlFrom(load, page + 1, maxPages).fetched == total.fetched
  {
    var rest := CrawlFrom(load, page + 1, maxPages);
    assert CrawlFrom(load, page, maxPages) == Crawl(load(page).value + rest.items, [page] + rest.fetched);
    assert (items + load(page).value) + rest.items == items + (load(page).value + rest.items);
    assert (fetched + [page]) + rest.fetched == fetched + ([page] + rest.fetched);
  }

  /** A loop step at a page that failed or was empty: the run ends with
      what was gathered before it. */
  lemma CrawlStepStops<T>(load: PageLoader<T>, page: nat, maxPages: int, items: seq<T>, fetched: seq<nat>, total: Crawl<T>)
    requires page <= maxPages && !Continues(load, page)
    requires items + CrawlFrom(load, page, maxPages).items == total.items
    requires fetched + CrawlFrom(load, page, maxPages).fetched == total.fetched
    ensures Crawl(items, fetched + [page]) == total
  {
    assert CrawlFrom(load, page, maxPages) == Crawl([], [page]);
    assert items + [] == items;
  }

  /** The `for page in range(1, max_pages + 1)` loop with its two `break`s,
      shared by `search_products` and `scrape_category`. */
  method Paginate<T>(load: PageLoader<T>, maxPages: int) returns (items: seq<T>, fetched: seq<nat>)
    ensures Crawl(items, fetched) == CrawlFrom(load, 1, maxPages)
    ensures |fetched| <= (if maxPages < 1 then 0 else maxPages)
    ensures forall i :: 0 <= i < |fetched| ==> fetched[i] == i + 1
  {
    items, fetched := [], [];
    var page: nat := 1;
    ghost var total := CrawlFrom(load, 1, maxPages);
    while page <= maxPages
      invariant 1 <= page
      invariant items + CrawlFrom(load, page, maxPages).items == total.items
      invariant fetched + CrawlFrom(load, page, maxPages).fetched == total.fetched
      decreases maxPages - page
    {
      var result := load(page);
      if result.None? || |result.value| == 0 {
        CrawlStepStops(load, page, maxPages, items, fetched, total);
        fetched := fetched + [page];
        break;
      }
      CrawlStepContinues(load, page, maxPages, items, fetched, total);
      items := items + result.value;
      fetched := fetched + [page];
      page := page + 1;
    }
    if page > maxPages {
      assert items + [] == items && fetched + [] == fetched;
    }
  }

  /** The search URL for one page: `{base}/groceries/en-GB/search?query={quote(query)}&page={page}`. */
  function SearchUrl(quote: string -> string, query: string, page: nat): (r: string)
    ensures |r| > |BaseUrl| && r[..|BaseUrl|] == BaseUrl
    ensures var prefix := BaseUrl + "/groceries/en-GB/search?query=" + quote(query) + "&page=";
      |r| > |prefix| && r[..|prefix|] == prefix && r[|prefix|..] == ShowNat(page)
  {
    BaseUrl + "/groceries/en-GB/search?query=" + quote(query) + "&page=" + ShowNat(page)
  }

  /** The category URL for one page: `{category_url}?page={page}`. */
  function CategoryPageUrl(categoryUrl: string, page: nat): (r: string)
    ensures |r| > |categoryUrl| && r[..|categoryUrl|] == categoryUrl
    ensures r[|categoryUrl|..] == "?page=" + ShowNat(page)
  {
    categoryUrl + "?page=" + ShowNat(page)
  }

  /** Two URLs that share a prefix and end in page numbers are equal only
      for the same page. */
  lemma PageSuffixInjective(prefix: string, p1: nat, p2: nat)
    requires prefix + ShowNat(p1) == prefix + ShowNat(p2)
    ensures p1 == p2
  {
    assert ShowNat(p1) == (prefix + ShowNat(p1))[|prefix|..];
    assert ShowNat(p2) == (prefix + ShowNat(p2))[|prefix|..];
    ShowNatInjective(p1, p2);
  }

  /** Different pages of one search are requested at different URLs, so no
      page is requested twice. */
  lemma SearchPageUrlsDistinct(quote: string -> string, query: string, p1: nat, p2: nat)
    requires p1 != p2
    ensures SearchUrl(quote, query, p1) != SearchUrl(quote, query, p2)
  {
    if SearchUrl(quote, query, p1) == SearchUrl(quote, query, p2) {
      PageSuffixInjective(BaseUrl + "/groceries/en-GB/search?query=" + quote(query) + "&page=", p1, p2);
    }
  }

  /** Likewise for the pages of one category. */
  lemma CategoryPageUrlsDistinct(categoryUrl: string, p1: nat, p2: nat)
    requires p1 != p2
    ensures CategoryPageUrl(categoryUrl, p1) != CategoryPageUrl(categoryUrl, p2)
  {
    if CategoryPageUrl(categoryUrl, p1) == CategoryPageUrl(categoryUrl, p2) {
      PageSuffixInjective(categoryUrl + "?page=", p1, p2);
    }
  }

  /** One page of a run: fetch its URL; a failed request yields `None`,
      otherwise the products parsed from the document. */
  function ListingLoader<N>(dom: Dom<N>, join: Joiner, fetch: string -> Fetch<N>, url: nat -> string): (load: PageLoader<Product>)
    ensures forall p :: load(p).Some? ==> forall k :: 0 <= k < |load(p).value| ==> load(p).value[k].name != []
    ensures forall p: nat :: fetch(url(p)).RequestFailed? ==> load(p).None?
    ensures forall p: nat :: fetch(url(p)).Fetched? ==> load(p) == Some(ParseProductListing(dom, join, fetch(url(p)).doc))
  {
    (page: nat) =>
      match fetch(url(page))
      case RequestFailed => None
      case Fetched(doc) => Some(ParseProductListing(dom, join, doc))
  }

  /** `search_products`: the run over the search result pages for `query`.
      Every returned product has a name. */
  method SearchProducts<N>(dom: Dom<N>, join: Joiner, fetch: string -> Fetch<N>, quote: string -> string,
                           query: string, maxPages: int := 5) returns (products: seq<Product>)
    ensures products == CrawlFrom(ListingLoader(dom, join, fetch, (p: nat) => SearchUrl(quote, query, p)), 1, maxPages).items
    ensures forall k :: 0 <= k < |products| ==> products[k].name != []
  {
    var load := ListingLoader(dom, join, fetch, (p: nat) => SearchUrl(quote, query, p));
    CrawlItemsComeFromPages(load, 1, maxPages, (x: Product) => x.name != []);
    var fetched;
    products, fetched := Paginate(load, maxPages);
  }

  /** `scrape_category`: the same run over the pages of a category URL. */
  method ScrapeCategory<N>(dom: Dom<N>, join: Joiner, fetch: string -> Fetch<N>,
                           categoryUrl: string, maxPages: int := 5) returns (products: seq<Product>)
    ensures products == CrawlFrom(ListingLoader(dom, join, fetch, (p: nat) => CategoryPageUrl(categoryUrl, p)), 1, maxPages).items
    ensures forall k :: 0 <= k < |products| ==> products[k].name != []
  {
    var load := ListingLoader(dom, join, fetch, (p: nat) => CategoryPageUrl(categoryUrl, p));
    CrawlItemsComeFromPages(load, 1, maxPages, (x: Product) => x.name != []);
    var fetched;
    products, fetched := Paginate(load, maxPages);
  }
}

=== FILE: text.dfy ===
/** Character-level helpers that stand in for Python's `str.strip()`,
    `str(int)` and `int(str)` on decimal digits. */
module Text {

  /** Python's `str.isspace()` on one character: the characters that
      `str.strip()` with no argument removes. */
  predicate IsSpace(c: char) {
    c in Whitespace
  }

  const Whitespace: set<char> := {
    '\t', '\n', '\U{0B}', '\U{0C}', '\r', '\U{1C}', '\U{1D}', '\U{1E}', '\U{1F}', ' ',
    '\U{85}', '\U{A0}', '\U{1680}',
    '\U{2000}', '\U{2001}', '\U{2002}', '\U{2003}', '\U{2004}', '\U{2005}',
    '\U{2006}', '\U{2007}', '\U{2008}', '\U{2009}', '\U{200A}',
    '\U{2028}', '\U{2029}', '\U{202F}', '\U{205F}', '\U{3000}'
  }

  /** A string with no whitespace at either end. */
  predicate IsStripped(s: string) {
    s == [] || (!IsSpace(s[0]) && !IsSpace(s[|s| - 1]))
  }

  /** Index of the first non-whitespace character at or after `from`
      (`|s|` when there is none). */
  function ContentStart(s: string, from: nat): (i: nat)
    requires from <= |s|
    ensures from <= i <= |s|
    ensures forall k :: from <= k < i ==> IsSpace(s[k])
    ensures i < |s| ==> !IsSpace(s[i])
    decreases |s| - from
  {
    if from < |s| && IsSpace(s[from]) then ContentStart(s, from + 1) else from
  }

  /** One past the last non-whitespace character before `to` (0 when there
      is none). */
  function ContentEnd(s: string, to: nat): (j: nat)
    requires to <= |s|
    ensures j <= to
    ensures forall k :: j <= k < to ==> IsSpace(s[k])
    ensures j > 0 ==> !IsSpace(s[j - 1])
  {
    if to > 0 && IsSpace(s[to - 1]) then ContentEnd(s, to - 1) else to
  }

  /** `r` is a slice of `s` with only whitespace cut from either end. */
  predicate TrimmedFrom(r: string, s: string) {
    exists i, j :: (0 <= i <= j <= |s| && r == s[i..j]
      && (forall k :: 0 <= k < i ==> IsSpace(s[k]))
      && (forall k :: j <= k < |s| ==> IsSpace(s[k])))
  }

  /** `s.strip()`: `s` without its leading and trailing whitespace. The
      result has no surrounding whitespace, is empty exactly when `s` is all
      whitespace, and a string that is already stripped is left alone;
      `StripCutsOnlyWhitespace` states that it is a slice of `s`. */
  function Strip(s: string): (r: string)
    ensures IsStripped(r)
    ensures |r| <= |s|
    ensures IsStripped(s) ==> r == s
    ensures r == [] <==> forall k :: 0 <= k < |s| ==> IsSpace(s[k])
  {
    var i := ContentStart(s, 0);
    var j := ContentEnd(s, |s|);
    if i < j then s[i..j] else []
  }

  /** What `s.strip()` removes is whitespace at the ends and nothing else:
      the result is a slice of `s`, and everything cut before and after it
      is whitespace. */
  lemma StripCutsOnlyWhitespace(s: string)
    ensures TrimmedFrom(Strip(s), s)
  {
    var i := ContentStart(s, 0);
    var j := ContentEnd(s, |s|);
    if i >= j {
      assert forall k :: 0 <= k < |s| ==> IsSpace(s[k]);
      assert Strip(s) == s[0..0];
    } else {
      assert Strip(s) == s[i..j];
    }
  }

  /** Stripped strings are closed under concatenation. */
  lemma ConcatStripped(a: string, b: string)
    requires IsStripped(a) && IsStripped(b)
    ensures IsStripped(a + b)
  {
    if a != [] && b != [] {
      assert (a + b)[0] == a[0];
      assert (a + b)[|a + b| - 1] == b[|b| - 1];
    }
  }

  predicate IsDigit(c: char) {
    '0' <= c <= '9'
  }

  predicate AllDigits(s: string) {
    forall k :: 0 <= k < |s| ==> IsDigit(s[k])
  }

  predicate NoDigit(s: string) {
    forall k :: 0 <= k < |s| ==> !IsDigit(s[k])
  }

  function DigitChar(d: nat): (c: char)
    requires d < 10
    ensures IsDigit(c)
  {
    (d + '0' as int) as char
  }

  function DigitValue(c: char): (d: nat)
    requires IsDigit(c)
    ensures d < 10 && DigitChar(d) == c
  {
    c as int - '0' as int
  }

  /** `int(s)` for a string of decimal digits. */
  function ParseNat(s: string): nat
    requires AllDigits(s)
  {
    if s == [] then 0 else ParseNat(s[..|s| - 1]) * 10 + DigitValue(s[|s| - 1])
  }

  /** `str(n)`: the decimal rendering of `n`, without leading zeros. */
  function ShowNat(n: nat): (s: string)
    ensures |s| > 0 && AllDigits(s)
    ensures s[0] == '0' ==> n == 0
  {
    if n < 10 then [DigitChar(n)] else ShowNat(n / 10) + [DigitChar(n % 10)]
  }

  /** `int(str(n)) == n`. */
  lemma {:induction false} ParseShowNat(n: nat)
    ensures ParseNat(ShowNat(n)) == n
  {
    if n >= 10 {
      var s := ShowNat(n);
      assert s[..|s| - 1] == ShowNat(n / 10);
      ParseShowNat(n / 10);
    }
  }

  /** Distinct numbers render differently. */
  lemma ShowNatInjective(m: nat, n: nat)
    requires ShowNat(m) == ShowNat(n)
    ensures m == n
  {
    ParseShowNat(m);
    ParseShowNat(n);
  }
}

=== FILE: wrappers.dfy ===
/** Optional values and results with an error channel, used wherever the
    scraper returns `None` or raises an exception that a caller catches. */
module Wrappers {

  /** Python's `Optional[T]`: `None` or a present value. */
  datatype Option<+T> = None | Some(value: T) {

    predicate IsFailure() {
      None?
    }

    function PropagateFailure<U>(): Option<U>
      requires None?
    {
      None
    }

    function Extract(): T
      requires Some?
    {
      value
    }

    /** The value, or `default` when absent (Python's `x or default` when
        `x` can only be falsy by being `None`). */
    function GetOr(default: T): T {
      match this
      case Some(v) => v
      case None => default
    }
  }

  /** The outcome of a computation that may raise: `Failure` carries the
      exception that escaped. */
  datatype Result<+T, +E> = Success(value: T) | Failure(error: E) {

    /** `try: ... except: return fallback` */
    function Recover(fallback: T): T {
      match this
      case Success(v) => v
      case Failure(_) => fallback
    }
  }
}
